=== FILE: README.md ===
# pgo-raftkv benchmark client, modelled in Dafny

This project models the client side of the `pgo-raftkv` database binding of
go-ycsb (`db/pgo-raftkv/db.go`). That binding turns the benchmark's
Read/Insert/Update/Delete/Scan calls into `Get`/`Put` request records for a
Raft-replicated key-value store whose protocol runtime (an MPCal archetype)
lives elsewhere. What the binding itself decides is modelled here as pure
functions over immutable datatypes:

- **Key namespacing** (`Codec.Namespace`): the wire key is `table + "/" + key`,
  the same for reads and writes.
- **Value encoding** (`Codec.Encode`, `Codec.Decode`): structured mode sends one
  record field per map entry; integer-size mode sends the decimal length of
  the map's JSON serialisation. Reads filter the returned record by the
  requested field names (all fields when none are named).
- **Response validation** (`Client.CheckGet`, `Client.CheckPut`): a response
  must have `msuccess` set, the response type matching the request, and the
  requested key; a Put response must echo the sent value. Any violation is a
  panic; a Get response with `ok` false is an ordinary "key not found" error.
- **Operations** (`Client.Read`, `Insert`, `Update`, `Delete`, `Scan`): Update is
  read, merge, put; Delete is a put of the empty map; Scan always fails and
  sends nothing.
- **The wait loop and timeout slot** (`Signals`): while a request is
  outstanding, each timeout drains the one-slot timeout channel and pushes a
  fresh signal, so at most one signal is ever pending and no request is
  re-sent. The loop is driven by a trace of events (timeout fired, runtime took
  the signal, response delivered).
- **Configuration** (`Config.Create`): the three address properties, the
  `endpoint->monitor` list parsed with Go's `strings.Split` semantics
  (`GoStrings.Split`, where `Split("", ",") == [""]`).
- **Thread set-up** (`Threads`): the thread-count checks of `InitThread`, the
  `net` mailbox routing closure and the `fd` monitor lookup.

`Cluster` is not part of the source: it is an idealised store that answers
every request at once and correctly. It is the reference the end-to-end
lemmas (insert-then-read, update-then-read, delete-then-read, reading an
unwritten key) are stated against.

Go panics (the `assert` helper, out-of-range indexing, `AsFunction` on a
non-record) are explicit outcome variants (`Client.Fatal`,
`Threads.ThreadPanic`, `Threads.LookupPanic`), not aborts.

Two behaviours worth noting:

- `InitThread` panics on every call whenever the thread count differs from the
  number of reply points, whatever the index (`Threads.InitThread`).
- `json.Marshal` cannot fail for a `map[string][]byte`, so its `panic(err)`
  branch is not modelled.

## Model

| member | source | states |
|---|---|---|
| GoStrings.Split | db/pgo-raftkv/db.go:276-277 | splitting gives at least one piece, joining the pieces with the separator gives the input back, no piece contains the separator, and there is one piece exactly when the separator does not occur |
| GoStrings.SplitJoinSingle | db/pgo-raftkv/db.go:290-292 | for a one-character separator, splitting a joined list of separator-free pieces gives exactly those pieces |
| GoStrings.Index | db/pgo-raftkv/db.go:276-277 | the result is the leftmost occurrence of the separator, and is absent exactly when the separator does not occur |
| GoStrings.FormatDecimal | db/pgo-raftkv/db.go:211 | `%d` of a non-negative length is a non-empty digit string with no leading zero |
| GoStrings.ParseFormatDecimal | db/pgo-raftkv/db.go:211 | reading the formatted digits back gives the original length |
| GoStrings.FormatDecimalInjective | db/pgo-raftkv/db.go:211 | different lengths are formatted differently |
| Wire.ExpectedType | db/pgo-raftkv/db.go:154 | a Get is answered by a ClientGetResponse and a Put by a ClientPutResponse |
| Codec.Namespace | db/pgo-raftkv/db.go:132 | the flat key is the table, then '/', then the key |
| Codec.NamespaceInjective | db/pgo-raftkv/db.go:203 | when neither table contains '/', equal flat keys mean equal tables and equal keys |
| Codec.NamespaceCollides | db/pgo-raftkv/db.go:132 | with a '/' inside a table name, two different (table, key) pairs share a flat key |
| Codec.MakeFilter | db/pgo-raftkv/db.go:134-140 | no filter exactly when no fields are named; otherwise the filter holds exactly the named fields |
| Codec.ApplyFilter | db/pgo-raftkv/db.go:165-173 | the result only holds entries of the record with their values; no filter keeps everything; a filter keeps exactly the record's entries whose name it holds |
| Codec.Encode | db/pgo-raftkv/db.go:205-221 | structured mode sends the field map itself as a record; integer-size mode sends the canonical digit string (no leading zero) that denotes the serialised length |
| Codec.Decode | db/pgo-raftkv/db.go:166-173 | decoding succeeds exactly for record values and gives the filtered record |
| Codec.DecodeEncode | db/pgo-raftkv/db.go:165-173 | decoding an encoded map under the filter of `fields` gives the map restricted to those fields, or the whole map when none are named |
| Signals.OnTimeout | db/pgo-raftkv/db.go:175-182 | after a timeout the single-slot channel holds exactly one `TRUE`, whatever it held before |
| Signals.Tick | db/pgo-raftkv/db.go:175-181 | a timeout leaves exactly one `TRUE` in the slot, the runtime taking a signal (it reads the channel wired as its `timeout` input at db.go:104) leaves it empty, and an arriving response leaves it untouched |
| Signals.SlotAfter | db/pgo-raftkv/db.go:146-183 | applying a run of events keeps the slot at capacity one with at most one signal; a run ending in a timeout leaves one signal pending, one ending with the runtime taking the signal leaves none |
| Signals.Await | db/pgo-raftkv/db.go:146-183 | the loop ends exactly when some response is delivered, with the first delivered response; the slot it hands back is the slot as the events before that response left it (the receive arm does not touch it), and while still waiting it is the slot after every event; a wait whose last event is a timeout leaves one signal pending |
| Signals.DeliveryAfterFirst | db/pgo-raftkv/db.go:146-183 | when the trace does not open with a response, its first delivery and the slot before it are those of the rest of the trace shifted by one |
| Signals.RepeatedTimeoutsHoldOne | db/pgo-raftkv/db.go:175-181 | any number of consecutive timeouts leaves exactly one pending signal |
| Client.ReadRequest | db/pgo-raftkv/db.go:141-144 | Read sends a Get of the namespaced key |
| Client.InsertRequest | db/pgo-raftkv/db.go:222-226 | Insert sends a Put of the namespaced key carrying the encoded values |
| Client.SameWireKey | db/pgo-raftkv/db.go:203 | Read and Insert address the same flat key `table + "/" + key` |
| Client.CheckGet | db/pgo-raftkv/db.go:150-174 | an integrity panic exactly when success, type or key fail; "key not found" exactly when those hold and `ok` is false; a result only when all hold and `ok` is true; an empty map in integer-size mode; otherwise the filtered response record, or a panic if the value is not a record |
| Client.CheckPut | db/pgo-raftkv/db.go:232-239 | a Put completes exactly when success, type and key hold and the echoed value equals the sent one; every other response panics |
| Client.Read | db/pgo-raftkv/db.go:130-184 | exactly one Get is sent; the read stays blocked exactly while no response has arrived; otherwise its outcome is the check of the first response and its slot is the one the earlier events left; a read still waiting after a timeout leaves one `TRUE` pending for the runtime |
| Client.Insert | db/pgo-raftkv/db.go:201-249 | exactly one Put is sent; blocked exactly while no response has arrived; otherwise the outcome is the check of the first response and the slot is the one the earlier events left; an insert still waiting after a timeout leaves one `TRUE` pending for the runtime |
| Client.Merge | db/pgo-raftkv/db.go:195-197 | every supplied field takes its new value and every other field read keeps its old one |
| Client.Update | db/pgo-raftkv/db.go:190-199 | Update first sends the Get; when the read gives no map (blocked, error or panic) its outcome is passed on, no Put is sent and the slot is the one the read left, so an Update still waiting on its Get after a timeout leaves one `TRUE` pending; otherwise the one Put carries the merged map and Update ends exactly as that Insert does |
| Client.Delete | db/pgo-raftkv/db.go:251-253 | Delete sends a Put of the empty map and ends as such an Insert does |
| Client.Scan | db/pgo-raftkv/db.go:186-188 | Scan sends nothing and returns the not-implemented error |
| Client.TimeoutsInvisibleToRead | db/pgo-raftkv/db.go:175-182 | timeouts and signal hand-offs before the response, and anything after it, change neither the requests a Read sends nor its outcome |
| Config.ToEntry | db/pgo-raftkv/db.go:277 | an entry's parts join back, with "->", to the entry |
| Config.Entries | db/pgo-raftkv/db.go:276 | the entries are the comma-separated pieces of the property, in order |
| Config.MappingShape | db/pgo-raftkv/db.go:277-281 | a well-formed entry is `source->target` with no other "->" in either part |
| Config.ParseMappings | db/pgo-raftkv/db.go:275-282 | success exactly when every entry splits into two parts; otherwise the error names the first bad entry; on success the keys are exactly the entries' sources |
| Config.ParseMappingsValues | db/pgo-raftkv/db.go:281 | each source maps to the target of its last entry, so a later duplicate overwrites an earlier one |
| Config.ParseEndpointMonitors | db/pgo-raftkv/db.go:271-282 | the same facts for the property string: success exactly when every comma-separated entry is `a->b`; otherwise the error names the first bad entry; the last entry for a source wins |
| Config.EmptyMonitorListRejected | db/pgo-raftkv/db.go:276-280 | an empty monitor property is one empty entry and is refused |
| Config.Create | db/pgo-raftkv/db.go:265-296 | each missing required property is reported by name in source order (endpoints, endpoint monitors, reply points); a bad monitor list is reported with the parser's error; success exactly when all three are present and the monitors parse, and then the address lists are non-empty, comma-free and join back with commas to their properties |
| Config.CreateRecoversAddressLists | db/pgo-raftkv/db.go:289-295 | when the endpoint and reply-point properties are comma-joined lists of comma-free addresses, a successful Create holds exactly those addresses |
| Threads.ToInt32 | db/pgo-raftkv/db.go:67 | `int32(n)` is in the signed 32-bit range, congruent to n modulo 2^32, and n itself when n fits |
| Threads.InitThread | db/pgo-raftkv/db.go:59-124 | succeeds exactly when the thread count equals the number of reply points, the index names one of them, and fewer than thread-count threads exist; a count mismatch always panics; a new thread gets its reply point, the server count and an empty one-slot timeout channel |
| Threads.InitThreads | db/pgo-raftkv/db.go:114-117 | a run of InitThread calls succeeds exactly when the counts match, every index is valid and no more than thread-count threads are made; thread i gets reply point idxs[i] |
| Threads.Route | db/pgo-raftkv/db.go:78-88 | local exactly for the thread's own address; server n in 1..len(endpoints) goes to endpoint n; another string goes to itself; any other index panics |
| Threads.ConfiguredServerReachable | db/pgo-raftkv/db.go:78-97 | for a server whose endpoint has a last entry among the parsed monitor entries, `net` routes its number to that endpoint and `fd` gives that entry's monitor |
| Threads.MonitorAddress | db/pgo-raftkv/db.go:89-97 | server n has a monitor address exactly when n names an endpoint that has an entry in the monitor map, and the address is that entry |
| Cluster.ReadUnwritten | db/pgo-raftkv/db.go:157-159 | reading a key never written gives "key not found: table/key" |
| Cluster.InsertThenRead | db/pgo-raftkv/db.go:165-173 | an Insert completes, and a later Read gives the inserted map restricted to the requested fields |
| Cluster.InsertThenReadInts | db/pgo-raftkv/db.go:161-164 | in integer-size mode a Read of a written key gives an empty map |
| Cluster.DeleteThenRead | db/pgo-raftkv/db.go:251-253 | after a Delete a Read finds the key with no fields |
| Cluster.UpdateThenRead | db/pgo-raftkv/db.go:190-199 | with no interleaving writer, Update sends a Get then a Put and completes, and a later Read gives the old fields with the new ones merged over them |
| Cluster.UpdateUnwritten | db/pgo-raftkv/db.go:191-194 | Update of an unwritten key returns "key not found" and sends no Put |

## Left out

- The protocol runtime (`distsys.NewMPCalContext`, `Run`, `Stop`, the archetype resource makers, the constants `ExploreFail`, `KeySet` and `Debug`, and the failure-detector intervals): foreign code whose behaviour is not visible here.
- Goroutines, unbuffered channel hand-offs, `select` and `time.After`: the wait is a trace of events (`Signals.WaitEvent`), and the requests an operation sends are listed in `Client.Step.sent`.
- Concurrent `InitThread` calls appending to the shared thread list: the model applies the calls one after another.
- `Close`, `CleanupThread`, `ToSqlDB`, `init` registration and the context-value plumbing: I/O, error aggregation by a foreign library, and benchmark-driver glue.
- `json.Marshal`: a foreign serialiser. Its output length is the parameter `marshalLen`, and its `panic(err)` branch is not modelled.
- `props.GetParsedDuration` and `props.GetBool`: property-library parsing. `Config.Create` receives the timeout and the mode already parsed, and only the constants for their keys are kept.
- TLA+ value internals: responses are closed datatypes, so a missing record field or a field of the wrong kind cannot occur. The panics that `ApplyFunction`, `AsBool` and `AsString` would raise for such values are not modelled, and `[]byte`/string conversions are the identity.
- GoStrings.Split: only non-empty separators are modelled, because the source only splits on "," and "->".
- Threads.Route: TLA+ numbers are unbounded integers here rather than `int32`. Converting an `int32` to `int` in the source is exact, so no behaviour is lost.

=== FILE: client.dfy ===
/**
  The benchmark-facing operations of the client (db/pgo-raftkv/db.go):
  Read, Insert, Update, Delete and Scan. Each operation sends its request,
  then waits; the wait is driven by a trace of events (Signals.Await), and
  the first response to arrive is validated and decoded.
*/
module Client {
  import opened Wrappers
  import opened Wire
  import opened Codec
  import opened Signals

  /** Why the process would panic: a failed `assert`, or a response value that is not a record. */
  datatype Fatal = IntegrityFailed | ValueNotARecord

  /** The ordinary errors an operation hands back to its caller. */
  datatype ClientError = KeyNotFound(key: string) | ScanNotImplemented

  /**
    How an operation ends: still waiting for its response, a panic, an
    error returned to the caller, or a result.
  */
  datatype Outcome<+T> = Blocked | Panicked(cause: Fatal) | Err(error: ClientError) | Done(value: T)

  /** One operation on one client thread: the requests it sent, its timeout slot afterwards, its outcome. */
  datatype Step<+T> = Step(sent: seq<Request>, signals: Chan<bool>, outcome: Outcome<T>)

  // ------------------------------------------------------------------ requests

  /** The request Read sends: a Get of the namespaced key. */
  function ReadRequest(table: string, key: string): (req: Request)
    ensures req.Get? && req.key == Namespace(table, key)
  {
    Get(Namespace(table, key))
  }

  /** The request Insert sends: a Put of the namespaced key with the encoded values. */
  function InsertRequest(useInts: bool, marshalLen: map<string, string> -> nat,
                         table: string, key: string, values: map<string, string>): (req: Request)
    ensures req.Put? && req.key == Namespace(table, key)
    ensures req.value == Encode(useInts, marshalLen, values)
  {
    Put(Namespace(table, key), Encode(useInts, marshalLen, values))
  }

  /** Read and Insert address the same flat key for the same table and key. */
  lemma SameWireKey(useInts: bool, marshalLen: map<string, string> -> nat,
                    table: string, key: string, values: map<string, string>)
    ensures ReadRequest(table, key).key == InsertRequest(useInts, marshalLen, table, key, values).key
                                        == table + "/" + key
  {
  }

  // ------------------------------------------------------------- validation

  /**
    What Read makes of the response to its Get. Any failed integrity check
    panics; an absent key is an ordinary error; in integer-size mode a found
    key yields an empty map without looking at the value; otherwise the
    value record is decoded and filtered.
  */
  function CheckGet(useInts: bool, req: Request, filter: Option<set<string>>, resp: Response)
    : (r: Outcome<map<string, string>>)
    requires req.Get?
    ensures !r.Blocked?
    ensures r == Panicked(IntegrityFailed) <==> !Correlates(req, resp)
    ensures r.Err? <==> Correlates(req, resp) && !resp.mresponse.ok
    ensures r.Err? ==> r.error == KeyNotFound(req.key)
    ensures r.Done? ==> Correlates(req, resp) && resp.mresponse.ok
    ensures r.Done? && useInts ==> r.value == map[]
    ensures r == Panicked(ValueNotARecord) <==>
              Correlates(req, resp) && resp.mresponse.ok && !useInts && !resp.mresponse.value.RecordVal?
    ensures r.Done? && !useInts ==>
              r.value.Keys <= resp.mresponse.value.fields.Keys
              && (forall k :: k in r.value ==> r.value[k] == resp.mresponse.value.fields[k])
              && (filter.None? ==> r.value == resp.mresponse.value.fields)
              && (filter.Some? ==> forall k :: k in r.value <==> k in resp.mresponse.value.fields && k in filter.value)
  {
    if !Correlates(req, resp) then Panicked(IntegrityFailed)
    else if !resp.mresponse.ok then Err(KeyNotFound(req.key))
    else if useInts then Done(map[])
    else match Decode(resp.mresponse.value, filter)
      case Success(fields) => Done(fields)
      case Failure(_) => Panicked(ValueNotARecord)
  }

  /**
    What Insert makes of the response to its Put: it completes only when the
    response correlates and echoes exactly the value that was sent, and
    panics otherwise.
  */
  function CheckPut(req: Request, resp: Response): (r: Outcome<()>)
    requires req.Put?
    ensures r.Done? || r == Panicked(IntegrityFailed)
    ensures r.Done? <==> Correlates(req, resp) && resp.mresponse.value == req.value
  {
    if Correlates(req, resp) && resp.mresponse.value == req.value then Done(())
    else Panicked(IntegrityFailed)
  }

  // ------------------------------------------------------------- operations

  /**
    Read(table, key, fields): one Get, then wait. The outcome is blocked
    while no response has arrived, and otherwise is CheckGet of the first
    response, whatever timeouts fired in between.
  */
  function Read(useInts: bool, signals: Chan<bool>, table: string, key: string,
                fields: seq<string>, events: seq<WaitEvent>): (r: Step<map<string, string>>)
    requires IsTimeoutChan(signals)
    ensures r.sent == [ReadRequest(table, key)]
    ensures IsTimeoutChan(r.signals)
    ensures r.outcome.Blocked? <==> !HasDelivery(events)
    ensures HasDelivery(events) ==>
              exists i :: FirstDelivery(events, i)
                          && r.outcome == CheckGet(useInts, ReadRequest(table, key), MakeFilter(fields), events[i].resp)
                          && r.signals == SlotAfter(signals, events[..i])
    ensures !HasDelivery(events) ==> r.signals == SlotAfter(signals, events)
    ensures !HasDelivery(events) && |events| > 0 && events[|events| - 1].Elapsed? ==> r.signals.buffer == [true]
  {
    var req := ReadRequest(table, key);
    match Await(signals, events)
    case Waiting(s) => Step([req], s, Blocked)
    case Arrived(s, resp) => Step([req], s, CheckGet(useInts, req, MakeFilter(fields), resp))
  }

  /**
    Insert(table, key, values): one Put of the encoded values, then wait;
    the first response must echo the sent value.
  */
  function Insert(useInts: bool, marshalLen: map<string, string> -> nat, signals: Chan<bool>,
                  table: string, key: string, values: map<string, string>,
                  events: seq<WaitEvent>): (r: Step<()>)
    requires IsTimeoutChan(signals)
    ensures r.sent == [InsertRequest(useInts, marshalLen, table, key, values)]
    ensures IsTimeoutChan(r.signals)
    ensures r.outcome.Blocked? <==> !HasDelivery(events)
    ensures HasDelivery(events) ==>
              exists i :: FirstDelivery(events, i)
                          && r.outcome == CheckPut(InsertRequest(useInts, marshalLen, table, key, values), events[i].resp)
                          && r.signals == SlotAfter(signals, events[..i])
    ensures !HasDelivery(events) ==> r.signals == SlotAfter(signals, events)
    ensures !HasDelivery(events) && |events| > 0 && events[|events| - 1].Elapsed? ==> r.signals.buffer == [true]
  {
    var req := InsertRequest(useInts, marshalLen, table, key, values);
    match Await(signals, events)
    case Waiting(s) => Step([req], s, Blocked)
    case Arrived(s, resp) => Step([req], s, CheckPut(req, resp))
  }

  /** The local merge of Update: every supplied field overwrites the one read. */
  function Merge(current: map<string, string>, values: map<string, string>): (r: map<string, string>)
    ensures r.Keys == current.Keys + values.Keys
    ensures forall k :: k in values ==> r[k] == values[k]
    ensures forall k :: k in current && k !in values ==> r[k] == current[k]
  {
    current + values
  }

  /** An outcome that carries no result, with the same panic or error. */
  function Forward<T>(o: Outcome<T>): (r: Outcome<()>)
    requires !o.Done?
    ensures r.Blocked? <==> o.Blocked?
    ensures r.Panicked? ==> o.Panicked? && r.cause == o.cause
    ensures r.Err? ==> o.Err? && r.error == o.error
    ensures !r.Done?
  {
    match o
    case Blocked => Blocked
    case Panicked(f) => Panicked(f)
    case Err(e) => Err(e)
  }

  /**
    Update(table, key, values): read the whole current value, merge `values`
    over it, and insert the merged map. When the read does not produce a map
    its outcome is passed on and nothing is inserted.
  */
  function Update(useInts: bool, marshalLen: map<string, string> -> nat, signals: Chan<bool>,
                  table: string, key: string, values: map<string, string>,
                  readEvents: seq<WaitEvent>, putEvents: seq<WaitEvent>): (r: Step<()>)
    requires IsTimeoutChan(signals)
    ensures IsTimeoutChan(r.signals)
    ensures 1 <= |r.sent| <= 2 && r.sent[0] == ReadRequest(table, key)
    ensures var rd := Read(useInts, signals, table, key, [], readEvents);
            && (!rd.outcome.Done? ==> r.sent == [ReadRequest(table, key)] && r.outcome == Forward(rd.outcome))
            && (rd.outcome.Done? ==>
                  r.sent == [ReadRequest(table, key),
                             InsertRequest(useInts, marshalLen, table, key, Merge(rd.outcome.value, values))])
    ensures var rd := Read(useInts, signals, table, key, [], readEvents);
            !rd.outcome.Done? ==> r.signals == rd.signals
    ensures !HasDelivery(readEvents) && |readEvents| > 0 && readEvents[|readEvents| - 1].Elapsed? ==>
              r.outcome.Blocked? && r.signals.buffer == [true]
    ensures var rd := Read(useInts, signals, table, key, [], readEvents);
            rd.outcome.Done? ==>
              var ins := Insert(useInts, marshalLen, rd.signals, table, key, Merge(rd.outcome.value, values), putEvents);
              r.outcome == ins.outcome && r.signals == ins.signals
  {
    var rd := Read(useInts, signals, table, key, [], readEvents);
    match rd.outcome
    case Done(current) =>
      var ins := Insert(useInts, marshalLen, rd.signals, table, key, Merge(current, values), putEvents);
      Step(rd.sent + ins.sent, ins.signals, ins.outcome)
    case _ => Step(rd.sent, rd.signals, Forward(rd.outcome))
  }

  /** Delete(table, key): a Put of the empty field map; there is no delete message. */
  function Delete(useInts: bool, marshalLen: map<string, string> -> nat, signals: Chan<bool>,
                  table: string, key: string, events: seq<WaitEvent>): (r: Step<()>)
    requires IsTimeoutChan(signals)
    ensures r.sent == [Put(Namespace(table, key), Encode(useInts, marshalLen, map[]))]
    ensures !useInts ==> r.sent == [Put(Namespace(table, key), RecordVal(map[]))]
    ensures r == Insert(useInts, marshalLen, signals, table, key, map[], events)
  {
    Insert(useInts, marshalLen, signals, table, key, map[], events)
  }

  /** Scan: always an error, and nothing is sent to the cluster. */
  function Scan(signals: Chan<bool>, table: string, startKey: string, count: int, fields: seq<string>)
    : (r: Step<seq<map<string, string>>>)
    ensures r.sent == [] && r.signals == signals
    ensures r.outcome == Err(ScanNotImplemented)
  {
    Step([], signals, Err(ScanNotImplemented))
  }

  /**
    Timeouts are invisible to the caller: whatever timeouts and signal
    hand-offs happen before the response, and whatever would have come
    after it, a Read sends the same single request and ends the same way as
    one whose response arrives at once.
  */
  lemma TimeoutsInvisibleToRead(useInts: bool, signals: Chan<bool>, table: string, key: string,
                                fields: seq<string>, before: seq<WaitEvent>, resp: Response,
                                after: seq<WaitEvent>)
    requires IsTimeoutChan(signals)
    requires !HasDelivery(before)
    ensures var late := Read(useInts, signals, table, key, fields, before + [Delivered(resp)] + after);
            var prompt := Read(useInts, signals, table, key, fields, [Delivered(resp)]);
            late.sent == prompt.sent && late.outcome == prompt.outcome
  {
    var events := before + [Delivered(resp)] + after;
    assert FirstDelivery(events, |before|) by {
      forall j | 0 <= j < |before|
        ensures !events[j].Delivered?
      {
        assert events[j] == before[j];
      }
    }
    assert forall i :: FirstDelivery(events, i) ==> i == |before|;
  }
}

=== FILE: cluster.dfy ===
/**
  An idealised cluster: a map from flat keys to stored values that answers
  every request at once and correctly. The real cluster is outside this
  model; this one is the reference against which the client's operations
  are shown to give the read-your-writes behaviour a benchmark expects.
*/
module Cluster {
  import opened Wire
  import opened Codec
  import opened Signals
  import opened Client

  type Store = map<string, WireValue>

  /** The store after a request, and the response it sends back. */
  function Serve(store: Store, req: Request): (r: (Store, Response))
    ensures Correlates(req, r.1)
    ensures req.Get? ==> r.0 == store && (r.1.mresponse.ok <==> req.key in store)
    ensures req.Get? && req.key in store ==> r.1.mresponse.value == store[req.key]
    ensures req.Put? ==> r.0 == store[req.key := req.value] && r.1.mresponse.value == req.value
  {
    match req
    case Get(k) =>
      var found := k in store;
      (store, Response(true, ClientGetResponse, ResponseBody(k, found, if found then store[k] else RecordVal(map[]))))
    case Put(k, v) =>
      (store[k := v], Response(true, ClientPutResponse, ResponseBody(k, true, v)))
  }

  /** The events of a wait that ends with the cluster's answer to `req`. */
  function Answer(store: Store, req: Request): seq<WaitEvent>
  {
    [Delivered(Serve(store, req).1)]
  }

  /** Reading a key that was never written is a "key not found" error, never a value. */
  lemma ReadUnwritten(useInts: bool, signals: Chan<bool>, store: Store, table: string, key: string, fields: seq<string>)
    requires IsTimeoutChan(signals)
    requires Namespace(table, key) !in store
    ensures Read(useInts, signals, table, key, fields, Answer(store, ReadRequest(table, key))).outcome
            == Err(KeyNotFound(table + "/" + key))
  {
  }

  /**
    In structured mode, an Insert answered by the cluster completes, and a
    later Read returns the inserted map restricted to the requested fields
    (the whole map when none are named).
  */
  lemma InsertThenRead(marshalLen: map<string, string> -> nat, signals: Chan<bool>, store: Store,
                       table: string, key: string, values: map<string, string>, fields: seq<string>)
    requires IsTimeoutChan(signals)
    ensures var put := InsertRequest(false, marshalLen, table, key, values);
            var ins := Insert(false, marshalLen, signals, table, key, values, Answer(store, put));
            var store' := Serve(store, put).0;
            var rd := Read(false, ins.signals, table, key, fields, Answer(store', ReadRequest(table, key)));
            && ins.outcome == Done(())
            && rd.outcome == Done(ApplyFilter(values, MakeFilter(fields)))
  {
  }

  /** In integer-size mode a Read of a written key succeeds with an empty map. */
  lemma InsertThenReadInts(marshalLen: map<string, string> -> nat, signals: Chan<bool>, store: Store,
                           table: string, key: string, values: map<string, string>, fields: seq<string>)
    requires IsTimeoutChan(signals)
    ensures var put := InsertRequest(true, marshalLen, table, key, values);
            var ins := Insert(true, marshalLen, signals, table, key, values, Answer(store, put));
            var store' := Serve(store, put).0;
            var rd := Read(true, ins.signals, table, key, fields, Answer(store', ReadRequest(table, key)));
            && ins.outcome == Done(())
            && rd.outcome == Done(map[])
  {
  }

  /** After a Delete the key is present but empty: a filtered Read finds no fields. */
  lemma DeleteThenRead(marshalLen: map<string, string> -> nat, signals: Chan<bool>, store: Store,
                       table: string, key: string, fields: seq<string>)
    requires IsTimeoutChan(signals)
    ensures var put := InsertRequest(false, marshalLen, table, key, map[]);
            var del := Delete(false, marshalLen, signals, table, key, Answer(store, put));
            var store' := Serve(store, put).0;
            var rd := Read(false, del.signals, table, key, fields, Answer(store', ReadRequest(table, key)));
            && del.outcome == Done(())
            && rd.outcome == Done(map[])
  {
  }

  /**
    Update with no interleaving writer: starting from a stored record, the
    read, the merge and the write all go through, and a later Read returns
    the old fields with the supplied ones merged over them.
  */
  lemma UpdateThenRead(marshalLen: map<string, string> -> nat, signals: Chan<bool>, store: Store,
                       table: string, key: string, current: map<string, string>, values: map<string, string>)
    requires IsTimeoutChan(signals)
    requires Namespace(table, key) in store && store[Namespace(table, key)] == RecordVal(current)
    ensures var get := ReadRequest(table, key);
            var put := InsertRequest(false, marshalLen, table, key, Merge(current, values));
            var up := Update(false, marshalLen, signals, table, key, values, Answer(store, get), Answer(store, put));
            var store' := Serve(store, put).0;
            var rd := Read(false, up.signals, table, key, [], Answer(store', get));
            && up.sent == [get, put]
            && up.outcome == Done(())
            && rd.outcome == Done(Merge(current, values))
  {
  }

  /** Update of a key that was never written returns "key not found" and writes nothing. */
  lemma UpdateUnwritten(useInts: bool, marshalLen: map<string, string> -> nat, signals: Chan<bool>, store: Store,
                        table: string, key: string, values: map<string, string>, putEvents: seq<WaitEvent>)
    requires IsTimeoutChan(signals)
    requires Namespace(table, key) !in store
    ensures var up := Update(useInts, marshalLen, signals, table, key, values,
                             Answer(store, ReadRequest(table, key)), putEvents);
            && up.sent == [ReadRequest(table, key)]
            && up.outcome == Err(KeyNotFound(Namespace(table, key)))
  {
  }
}

=== FILE: codec.dfy ===
/**
  Key namespacing, the field filter of a read, and the two value encodings
  (structured record or integer-size string) used by the client.
*/
module Codec {
  import opened Wrappers
  import opened GoStrings
  import opened Wire

  /** The flat key under which `(table, key)` is stored: `table + "/" + key`. */
  function Namespace(table: string, key: string): (r: string)
    ensures |r| == |table| + 1 + |key|
    ensures r[..|table|] == table && r[|table|] == '/' && r[|table| + 1..] == key
  {
    table + "/" + key
  }

  /**
    Namespacing is injective on tables that contain no '/': two flat keys
    are equal only when both the table and the key are.
  */
  lemma NamespaceInjective(t1: string, k1: string, t2: string, k2: string)
    requires forall i :: 0 <= i < |t1| ==> t1[i] != '/'
    requires forall i :: 0 <= i < |t2| ==> t2[i] != '/'
    requires Namespace(t1, k1) == Namespace(t2, k2)
    ensures t1 == t2 && k1 == k2
  {
  }

  /** Without that condition two different pairs can share a flat key. */
  lemma NamespaceCollides()
    ensures Namespace("a/b", "c") == Namespace("a", "b/c")
  {
  }

  /**
    The read filter: absent (Go's nil map) when no fields were asked for,
    otherwise the set of requested field names.
  */
  function MakeFilter(fields: seq<string>): (r: Option<set<string>>)
    ensures r.None? <==> |fields| == 0
    ensures r.Some? ==> forall f :: f in r.value <==> f in fields
  {
    if |fields| == 0 then None else Some(set f | f in fields)
  }

  /** Keep the entries of a record that the filter lets through. */
  function ApplyFilter(record: map<string, string>, filter: Option<set<string>>): (r: map<string, string>)
    ensures r.Keys <= record.Keys
    ensures forall k :: k in r ==> r[k] == record[k]
    ensures filter.None? ==> r == record
    ensures filter.Some? ==> forall k :: k in r <==> k in record && k in filter.value
  {
    match filter
    case None => record
    case Some(names) => map k | k in record && k in names :: record[k]
  }

  /**
    The value sent with a Put. Structured mode sends one record field per
    map entry; integer-size mode sends the decimal length of the JSON
    serialisation of the map, which `marshalLen` supplies.
  */
  function Encode(useInts: bool, marshalLen: map<string, string> -> nat, values: map<string, string>): (v: WireValue)
    ensures v.RecordVal? <==> !useInts
    ensures !useInts ==> v.fields == values
    ensures useInts ==> IsDecimal(v.s) && ParseDecimal(v.s) == marshalLen(values)
    ensures useInts ==> |v.s| >= 1 && (v.s[0] == '0' ==> |v.s| == 1)
  {
    if useInts then
      ParseFormatDecimal(marshalLen(values));
      StrVal(FormatDecimal(marshalLen(values)))
    else RecordVal(values)
  }

  /** Why a Get response's value cannot be turned into a field map. */
  datatype DecodeError = NotARecord

  /**
    Turn the value of a Get response into a field map, keeping only the
    fields the filter lets through. A value that is not a record cannot be
    iterated as a function and fails.
  */
  function Decode(v: WireValue, filter: Option<set<string>>): (r: Result<map<string, string>, DecodeError>)
    ensures r.Success? <==> v.RecordVal?
    ensures r.Success? ==> r.value == ApplyFilter(v.fields, filter)
  {
    match v
    case RecordVal(fields) => Success(ApplyFilter(fields, filter))
    case StrVal(_) => Failure(NotARecord)
  }

  /**
    Structured round trip: decoding what was encoded, under the filter made
    from `fields`, gives the encoded map restricted to those fields, or the
    whole map when no fields were named.
  */
  lemma DecodeEncode(marshalLen: map<string, string> -> nat, values: map<string, string>, fields: seq<string>)
    ensures Decode(Encode(false, marshalLen, values), MakeFilter(fields)).Success?
    ensures |fields| == 0 ==> Decode(Encode(false, marshalLen, values), MakeFilter(fields)).value == values
    ensures |fields| > 0 ==> Decode(Encode(false, marshalLen, values), MakeFilter(fields)).value
                               == map k | k in values && k in fields :: values[k]
  {
  }
}

=== FILE: config.dfy ===
/**
  Construction of the client from its configuration properties
  (`raftCreator.Create` in db/pgo-raftkv/db.go), including the parsing of
  the endpoint-to-monitor mapping.
*/
module Config {
  import opened Wrappers
  import opened GoStrings

  const EndpointsKey: string := "pgo-raftkv.endpoints"
  const EndpointMonitorsKey: string := "pgo-raftkv.endpointmonitors"
  const ClientReplyPointsKey: string := "pgo-raftkv.clientreplypoints"
  const RequestTimeoutKey: string := "pgo-raftkv.requesttimeout"
  const UseIntsKey: string := "ycsb.useints"

  /** Separator between list entries, and between an endpoint and its monitor. */
  const ListSep: string := ","
  const ArrowSep: string := "->"

  /** Why Create refuses a configuration. */
  datatype ConfigError = MissingProperty(name: string) | BadMonitorMapping(piece: string)

  /**
    The configured client: the cluster endpoints (server `i` is entry
    `i - 1`), the endpoint-to-monitor map, one reply address per thread, the
    request timeout and the value-encoding mode.
  */
  datatype RaftClient = RaftClient(
    endpoints: seq<string>,
    endpointMonitors: map<string, string>,
    clientReplyPoints: seq<string>,
    requestTimeoutMs: nat,
    useInts: bool)

  /** One entry of the monitor list together with its split on "->". */
  datatype Entry = Entry(text: string, parts: seq<string>)

  function ToEntry(piece: string): (e: Entry)
    ensures e.text == piece && |e.parts| >= 1 && Join(e.parts, ArrowSep) == piece
  {
    Entry(piece, Split(piece, ArrowSep))
  }

  /** The entries of a comma-separated list, in order. */
  function Entries(s: string): (es: seq<Entry>)
    ensures |es| == |Split(s, ListSep)| >= 1
    ensures forall i :: 0 <= i < |es| ==> es[i] == ToEntry(Split(s, ListSep)[i])
  {
    var pieces := Split(s, ListSep);
    seq(|pieces|, i requires 0 <= i < |pieces| => ToEntry(pieces[i]))
  }

  /** An entry that splits into exactly two parts. */
  predicate IsMapping(e: Entry)
  {
    |e.parts| == 2
  }

  function Source(e: Entry): string
    requires IsMapping(e)
  {
    e.parts[0]
  }

  function Target(e: Entry): string
    requires IsMapping(e)
  {
    e.parts[1]
  }

  /** A well-formed entry is `source->target` with no other arrow in it. */
  lemma MappingShape(piece: string)
    requires IsMapping(ToEntry(piece))
    ensures piece == Source(ToEntry(piece)) + ArrowSep + Target(ToEntry(piece))
    ensures !Contains(Source(ToEntry(piece)), ArrowSep) && !Contains(Target(ToEntry(piece)), ArrowSep)
  {
  }

  /** Some well-formed entry from position `from` on maps `k`. */
  predicate IsSourceFrom(entries: seq<Entry>, from: int, k: string)
  {
    exists i :: from <= i < |entries| && 0 <= i && IsMapping(entries[i]) && Source(entries[i]) == k
  }

  /** A later well-formed entry maps the same source as entry `i`. */
  predicate Overridden(entries: seq<Entry>, i: int)
    requires 0 <= i < |entries| && IsMapping(entries[i])
  {
    exists j :: i < j < |entries| && IsMapping(entries[j]) && Source(entries[j]) == Source(entries[i])
  }

  /**
    The loop over the comma-separated entries from position `from` on,
    adding each `source->target` to `acc`. It stops with an error naming the
    first entry that does not split into exactly two parts; otherwise the
    keys are those of `acc` and the sources of the entries.
  */
  function ParseMappings(entries: seq<Entry>, from: nat, acc: map<string, string>)
    : (r: Result<map<string, string>, ConfigError>)
    requires from <= |entries|
    decreases |entries| - from
    ensures r.Success? <==> forall i :: from <= i < |entries| ==> IsMapping(entries[i])
    ensures r.Failure? ==>
              exists i :: from <= i < |entries| && !IsMapping(entries[i])
                          && (forall j :: from <= j < i ==> IsMapping(entries[j]))
                          && r.error == BadMonitorMapping(entries[i].text)
    ensures r.Success? ==> forall k :: k in r.value <==> k in acc || IsSourceFrom(entries, from, k)
  {
    if from == |entries| then Success(acc)
    else if !IsMapping(entries[from]) then Failure(BadMonitorMapping(entries[from].text))
    else
      var e := entries[from];
      var r := ParseMappings(entries, from + 1, acc[Source(e) := Target(e)]);
      if r.Success? then
        assert forall k :: IsSourceFrom(entries, from, k) <==> k == Source(e) || IsSourceFrom(entries, from + 1, k);
        r
      else r
  }

  /**
    What the parsed map holds: an accumulated entry that no list entry maps
    keeps its value, and each source maps to the target of its last entry —
    a later duplicate overwrites an earlier one.
  */
  lemma {:induction false} ParseMappingsValues(entries: seq<Entry>, from: nat, acc: map<string, string>)
    requires from <= |entries|
    requires ParseMappings(entries, from, acc).Success?
    decreases |entries| - from
    ensures forall k :: k in acc && !IsSourceFrom(entries, from, k) ==>
              ParseMappings(entries, from, acc).value[k] == acc[k]
    ensures forall i :: from <= i < |entries| && !Overridden(entries, i) ==>
              Source(entries[i]) in ParseMappings(entries, from, acc).value
              && ParseMappings(entries, from, acc).value[Source(entries[i])] == Target(entries[i])
  {
    if from < |entries| {
      var e := entries[from];
      var acc' := acc[Source(e) := Target(e)];
      ParseMappingsValues(entries, from + 1, acc');
      assert !Overridden(entries, from) ==> !IsSourceFrom(entries, from + 1, Source(e));
    }
  }

  /**
    The endpoint-monitor property: a comma-separated list of
    `endpoint->monitor` entries, parsed into a map, or the first malformed
    entry.
  */
  function ParseEndpointMonitors(s: string): (r: Result<map<string, string>, ConfigError>)
    ensures var es := Entries(s);
            r.Success? <==> forall i :: 0 <= i < |es| ==> IsMapping(es[i])
    ensures var es := Entries(s);
            r.Failure? ==> exists i :: 0 <= i < |es| && !IsMapping(es[i])
                                       && (forall j :: 0 <= j < i ==> IsMapping(es[j]))
                                       && r.error == BadMonitorMapping(es[i].text)
    ensures var es := Entries(s);
            r.Success? ==> forall k :: k in r.value <==> IsSourceFrom(es, 0, k)
    ensures var es := Entries(s);
            r.Success? ==> forall i :: 0 <= i < |es| && !Overridden(es, i) ==>
                             Source(es[i]) in r.value && r.value[Source(es[i])] == Target(es[i])
  {
    var r := ParseMappings(Entries(s), 0, map[]);
    if r.Success? then ParseMappingsValues(Entries(s), 0, map[]); r else r
  }

  /** An empty monitor list is one empty entry, which has no arrow, so it is refused. */
  lemma EmptyMonitorListRejected()
    ensures ParseEndpointMonitors("") == Failure(BadMonitorMapping(""))
  {
  }

  /**
    Create: the three address properties are required and checked in the
    order endpoints, endpoint monitors, client reply points; the monitor
    mapping is parsed before the reply points are looked up. The timeout and
    the encoding mode arrive already parsed.
  */
  function Create(props: map<string, string>, requestTimeoutMs: nat, useInts: bool)
    : (r: Result<RaftClient, ConfigError>)
    ensures EndpointsKey !in props ==> r == Failure(MissingProperty(EndpointsKey))
    ensures EndpointsKey in props && EndpointMonitorsKey !in props ==>
              r == Failure(MissingProperty(EndpointMonitorsKey))
    ensures EndpointsKey in props && EndpointMonitorsKey in props
            && ParseEndpointMonitors(props[EndpointMonitorsKey]).Failure? ==>
              r == Failure(ParseEndpointMonitors(props[EndpointMonitorsKey]).error)
    ensures EndpointsKey in props && EndpointMonitorsKey in props
            && ParseEndpointMonitors(props[EndpointMonitorsKey]).Success? && ClientReplyPointsKey !in props ==>
              r == Failure(MissingProperty(ClientReplyPointsKey))
    ensures r.Success? <==>
              && EndpointsKey in props && EndpointMonitorsKey in props && ClientReplyPointsKey in props
              && ParseEndpointMonitors(props[EndpointMonitorsKey]).Success?
    ensures r.Success? ==>
              && |r.value.endpoints| >= 1 && Join(r.value.endpoints, ListSep) == props[EndpointsKey]
              && |r.value.clientReplyPoints| >= 1 && Join(r.value.clientReplyPoints, ListSep) == props[ClientReplyPointsKey]
              && (forall i :: 0 <= i < |r.value.endpoints| ==> !Contains(r.value.endpoints[i], ListSep))
              && (forall i :: 0 <= i < |r.value.clientReplyPoints| ==> !Contains(r.value.clientReplyPoints[i], ListSep))
              && r.value.endpointMonitors == ParseEndpointMonitors(props[EndpointMonitorsKey]).value
              && r.value.requestTimeoutMs == requestTimeoutMs && r.value.useInts == useInts
  {
    if EndpointsKey !in props then Failure(MissingProperty(EndpointsKey))
    else if EndpointMonitorsKey !in props then Failure(MissingProperty(EndpointMonitorsKey))
    else match ParseEndpointMonitors(props[EndpointMonitorsKey])
      case Failure(e) => Failure(e)
      case Success(monitors) =>
        if ClientReplyPointsKey !in props then Failure(MissingProperty(ClientReplyPointsKey))
        else Success(RaftClient(
          Split(props[EndpointsKey], ListSep),
          monitors,
          Split(props[ClientReplyPointsKey], ListSep),
          requestTimeoutMs,
          useInts))
  }

  /**
    The list properties are comma-separated: when the endpoint and reply
    point properties are comma-joined lists of comma-free addresses, a
    successful Create holds exactly those addresses.
  */
  lemma CreateRecoversAddressLists(props: map<string, string>, requestTimeoutMs: nat, useInts: bool,
                                   endpoints: seq<string>, replyPoints: seq<string>)
    requires |endpoints| >= 1 && |replyPoints| >= 1
    requires forall i :: 0 <= i < |endpoints| ==> !Contains(endpoints[i], ListSep)
    requires forall i :: 0 <= i < |replyPoints| ==> !Contains(replyPoints[i], ListSep)
    requires EndpointsKey in props && props[EndpointsKey] == Join(endpoints, ListSep)
    requires ClientReplyPointsKey in props && props[ClientReplyPointsKey] == Join(replyPoints, ListSep)
    ensures Create(props, requestTimeoutMs, useInts).Success? ==>
              && Create(props, requestTimeoutMs, useInts).value.endpoints == endpoints
              && Create(props, requestTimeoutMs, useInts).value.clientReplyPoints == replyPoints
  {
    SplitJoinSingle(endpoints, ',');
    SplitJoinSingle(replyPoints, ',');
  }
}

=== FILE: gostrings.dfy ===
/**
  The pieces of Go's `strings` and `fmt` packages that the client relies on:
  `strings.Index`, `strings.Split` and `strings.Join` with a non-empty
  separator, and `fmt.Sprintf("%d", n)` for a non-negative `n`.
*/
module GoStrings {
  import opened Wrappers

  /** `sep` occurs in `s` starting at position `i`. */
  predicate OccursAt(s: string, sep: string, i: nat)
  {
    i + |sep| <= |s| && s[i..i + |sep|] == sep
  }

  /** `strings.Contains(s, sep)`. */
  predicate Contains(s: string, sep: string)
  {
    exists i :: 0 <= i <= |s| && OccursAt(s, sep, i)
  }

  /** The first occurrence of `sep` in `s` at or after position `from`. */
  function IndexFrom(s: string, sep: string, from: nat): (r: Option<nat>)
    requires |sep| > 0
    decreases |s| - from
    ensures r.Some? ==> from <= r.value && OccursAt(s, sep, r.value)
    ensures r.Some? ==> forall j: nat :: from <= j < r.value ==> !OccursAt(s, sep, j)
    ensures r.None? ==> forall j: nat :: from <= j ==> !OccursAt(s, sep, j)
  {
    if |s| < from + |sep| then None
    else if OccursAt(s, sep, from) then Some(from)
    else IndexFrom(s, sep, from + 1)
  }

  /** `strings.Index(s, sep)`: the leftmost occurrence, `None` for Go's -1. */
  function Index(s: string, sep: string): (r: Option<nat>)
    requires |sep| > 0
    ensures r.None? <==> !Contains(s, sep)
    ensures r.Some? ==> OccursAt(s, sep, r.value)
    ensures r.Some? ==> forall j: nat :: j < r.value ==> !OccursAt(s, sep, j)
  {
    IndexFrom(s, sep, 0)
  }

  /** `strings.Join(parts, sep)`. */
  function Join(parts: seq<string>, sep: string): string
  {
    if |parts| == 0 then ""
    else if |parts| == 1 then parts[0]
    else parts[0] + sep + Join(parts[1..], sep)
  }

  /** No occurrence of `sep` lies inside the prefix that ends where the first one starts. */
  lemma PrefixBeforeIndex(s: string, sep: string, i: nat)
    requires |sep| > 0
    requires Index(s, sep) == Some(i)
    ensures !Contains(s[..i], sep)
  {
    forall j | 0 <= j <= i
      ensures !OccursAt(s[..i], sep, j)
    {
      if j + |sep| <= i {
        assert !OccursAt(s, sep, j);
        assert s[..i][j..j + |sep|] == s[j..j + |sep|];
      }
    }
  }

  /**
    `strings.Split(s, sep)` for a non-empty separator: the pieces between the
    successive leftmost non-overlapping occurrences of `sep`. As in Go,
    `Split("", ",") == [""]`. The contract does not itself say that each cut
    is at the leftmost occurrence: the body does, through `Index`. For a
    one-character separator `SplitJoinSingle` shows the pieces are the only
    separator-free ones.
  */
  function Split(s: string, sep: string): (r: seq<string>)
    requires |sep| > 0
    decreases |s|
    ensures |r| >= 1
    ensures Join(r, sep) == s
    ensures forall k :: 0 <= k < |r| ==> !Contains(r[k], sep)
    ensures |r| == 1 <==> !Contains(s, sep)
  {
    match Index(s, sep)
    case None => [s]
    case Some(i) =>
      PrefixBeforeIndex(s, sep, i);
      assert s == s[..i] + sep + s[i + |sep|..];
      [s[..i]] + Split(s[i + |sep|..], sep)
  }

  /** A piece free of the single-character separator `c` ends before the first `c`. */
  lemma IndexOfSingleAfterPiece(p: string, c: char, rest: string)
    requires !Contains(p, [c])
    ensures Index(p + [c] + rest, [c]) == Some(|p|)
  {
    var s := p + [c] + rest;
    assert OccursAt(s, [c], |p|) by { assert s[|p|..|p| + 1] == [c]; }
    forall j: nat | j < |p|
      ensures !OccursAt(s, [c], j)
    {
      assert !OccursAt(p, [c], j);
      assert s[j..j + 1] == p[j..j + 1];
    }
  }

  /**
    With a single-character separator, splitting undoes joining: the pieces
    of a comma-separated list are exactly the comma-free strings it was built
    from. Together with `Split`'s own contract this makes `Split(_, [c])` the
    unique comma-free decomposition of a string.
  */
  lemma {:induction false} SplitJoinSingle(parts: seq<string>, c: char)
    requires |parts| >= 1
    requires forall k :: 0 <= k < |parts| ==> !Contains(parts[k], [c])
    ensures Split(Join(parts, [c]), [c]) == parts
  {
    if |parts| == 1 {
      assert Join(parts, [c]) == parts[0];
    } else {
      var rest := Join(parts[1..], [c]);
      assert Join(parts, [c]) == parts[0] + [c] + rest;
      IndexOfSingleAfterPiece(parts[0], c, rest);
      var s := parts[0] + [c] + rest;
      assert s[..|parts[0]|] == parts[0];
      assert s[|parts[0]| + 1..] == rest;
      SplitJoinSingle(parts[1..], c);
      assert parts == [parts[0]] + parts[1..];
    }
  }

  // ---------------------------------------------------------------- decimals

  predicate IsDigit(ch: char)
  {
    '0' <= ch <= '9'
  }

  predicate IsDecimal(s: string)
  {
    forall i :: 0 <= i < |s| ==> IsDigit(s[i])
  }

  function DigitChar(d: nat): (ch: char)
    requires d < 10
    ensures IsDigit(ch)
  {
    "0123456789"[d]
  }

  function DigitValue(ch: char): (d: nat)
    requires IsDigit(ch)
    ensures d < 10
    ensures DigitChar(d) == ch
  {
    (ch - '0') as nat
  }

  /** `fmt.Sprintf("%d", n)` for `n >= 0`: decimal digits, no leading zero. */
  function FormatDecimal(n: nat): (r: string)
    decreases n
    ensures |r| >= 1 && IsDecimal(r)
    ensures r[0] == '0' ==> |r| == 1
  {
    if n < 10 then [DigitChar(n)]
    else FormatDecimal(n / 10) + [DigitChar(n % 10)]
  }

  /** The number a string of decimal digits denotes. */
  function ParseDecimal(s: string): nat
    requires IsDecimal(s)
  {
    if |s| == 0 then 0
    else 10 * ParseDecimal(s[..|s| - 1]) + DigitValue(s[|s| - 1])
  }

  lemma DigitRoundTrip(d: nat)
    requires d < 10
    ensures DigitValue(DigitChar(d)) == d
  {
  }

  /** Reading back the formatted decimal gives the number that was formatted. */
  lemma {:induction false} ParseFormatDecimal(n: nat)
    ensures ParseDecimal(FormatDecimal(n)) == n
  {
    var r := FormatDecimal(n);
    if n < 10 {
      DigitRoundTrip(n);
    } else {
      ParseFormatDecimal(n / 10);
      assert r[..|r| - 1] == FormatDecimal(n / 10);
      DigitRoundTrip(n % 10);
    }
  }

  /** Different numbers are formatted differently. */
  lemma FormatDecimalInjective(m: nat, n: nat)
    requires FormatDecimal(m) == FormatDecimal(n)
    ensures m == n
  {
    ParseFormatDecimal(m);
    ParseFormatDecimal(n);
  }
}

=== FILE: signals.dfy ===
/**
  The single-slot timeout channel of a client thread and the wait loop that
  feeds it while a request is outstanding (db/pgo-raftkv/db.go).
*/
module Signals {
  import opened Wire

  /** A buffered Go channel: its capacity and the values waiting in it, oldest first. */
  datatype Chan<T> = Chan(capacity: nat, buffer: seq<T>)

  /** The timeout channel as `make(chan tla.TLAValue, 1)` creates it. */
  const NewTimeoutChan: Chan<bool> := Chan(1, [])

  /** A timeout channel in any state it can reach: capacity one, at most one signal. */
  predicate IsTimeoutChan(c: Chan<bool>)
  {
    c.capacity == 1 && |c.buffer| <= 1
  }

  /** `select { case <-c: default: }`: take the oldest value if there is one. */
  function TryReceive<T>(c: Chan<T>): (r: Chan<T>)
    ensures r.capacity == c.capacity
    ensures |c.buffer| > 0 ==> r.buffer == c.buffer[1..]
    ensures |c.buffer| == 0 ==> r == c
  {
    if |c.buffer| > 0 then c.(buffer := c.buffer[1..]) else c
  }

  /** `c <- v` on a channel with room: the value joins the back of the buffer. */
  function Send<T>(c: Chan<T>, v: T): (r: Chan<T>)
    requires |c.buffer| < c.capacity
    ensures r.capacity == c.capacity && |r.buffer| == |c.buffer| + 1
    ensures r.buffer[..|c.buffer|] == c.buffer && r.buffer[|c.buffer|] == v
  {
    c.(buffer := c.buffer + [v])
  }

  /**
    One request timeout: drain any stale signal without blocking, then push
    `TRUE`. Because the drain always empties the single slot first, the push
    never blocks and the channel ends up holding exactly one signal.
  */
  function OnTimeout(c: Chan<bool>): (r: Chan<bool>)
    requires IsTimeoutChan(c)
    ensures IsTimeoutChan(r)
    ensures r.buffer == [true]
  {
    Send(TryReceive(c), true)
  }

  /** What can happen while a request is outstanding. */
  datatype WaitEvent =
    | Elapsed                    // the request timeout fired
    | SignalTaken                // the protocol runtime consumed a pending timeout signal
    | Delivered(resp: Response)  // a response arrived on the outbound channel

  /** The wait loop either is still blocked or has received its response. */
  datatype WaitState =
    | Waiting(signals: Chan<bool>)
    | Arrived(signals: Chan<bool>, resp: Response)

  /** Some event of the trace delivers a response. */
  predicate HasDelivery(events: seq<WaitEvent>)
  {
    exists i :: 0 <= i < |events| && events[i].Delivered?
  }

  /** The `i`-th event is the first delivery of the trace. */
  predicate FirstDelivery(events: seq<WaitEvent>, i: int)
  {
    0 <= i < |events| && events[i].Delivered?
    && forall j :: 0 <= j < i ==> !events[j].Delivered?
  }

  /**
    What one event does to the slot: a timeout drains and refills it, the
    runtime taking a signal empties it (the channel is its `timeout` input,
    db/pgo-raftkv/db.go:104), and a response leaves it alone.
  */
  function Tick(c: Chan<bool>, e: WaitEvent): (r: Chan<bool>)
    requires IsTimeoutChan(c)
    ensures IsTimeoutChan(r)
    ensures e.Elapsed? ==> r.buffer == [true]
    ensures e.SignalTaken? ==> r.buffer == []
    ensures e.Delivered? ==> r == c
  {
    match e
    case Elapsed => OnTimeout(c)
    case SignalTaken => TryReceive(c)
    case Delivered(_) => c
  }

  /** The slot after a run of events, each applied in turn. */
  function SlotAfter(c: Chan<bool>, events: seq<WaitEvent>): (r: Chan<bool>)
    requires IsTimeoutChan(c)
    decreases |events|
    ensures IsTimeoutChan(r)
    ensures |events| > 0 && events[|events| - 1].Elapsed? ==> r.buffer == [true]
    ensures |events| > 0 && events[|events| - 1].SignalTaken? ==> r.buffer == []
  {
    if |events| == 0 then c
    else
      assert |events| > 1 ==> events[|events| - 1] == events[1..][|events[1..]| - 1];
      SlotAfter(Tick(c, events[0]), events[1..])
  }

  /**
    The `for { select { ... } }` loop of Read and Insert, driven by a trace
    of events. Timeouts only touch the signal slot; the loop ends with the
    first response that arrives, leaving the slot as the earlier events left
    it. No request is sent from inside the loop.
  */
  function Await(signals: Chan<bool>, events: seq<WaitEvent>): (r: WaitState)
    requires IsTimeoutChan(signals)
    decreases |events|
    ensures IsTimeoutChan(r.signals)
    ensures r.Arrived? <==> HasDelivery(events)
    ensures r.Arrived? ==>
              exists i :: FirstDelivery(events, i) && events[i].resp == r.resp
                          && r.signals == SlotAfter(signals, events[..i])
    ensures r.Waiting? ==> r.signals == SlotAfter(signals, events)
    ensures r.Waiting? && |events| > 0 && events[|events| - 1].Elapsed? ==> r.signals.buffer == [true]
    ensures |events| == 0 ==> r == Waiting(signals)
  {
    if |events| == 0 then Waiting(signals)
    else if events[0].Delivered? then
      assert FirstDelivery(events, 0) && events[..0] == [];
      Arrived(signals, events[0].resp)
    else
      var rest := Await(Tick(signals, events[0]), events[1..]);
      if rest.Arrived? then
        ghost var i :| FirstDelivery(events[1..], i) && events[1..][i].resp == rest.resp
                       && rest.signals == SlotAfter(Tick(signals, events[0]), events[1..][..i]);
        DeliveryAfterFirst(signals, events, i);
        rest
      else
        assert forall i :: 1 <= i < |events| ==> events[i] == events[1..][i - 1];
        rest
  }

  /**
    When the trace does not open with a response, its first delivery and the
    slot before it are those of the rest of the trace, one position later.
  */
  lemma DeliveryAfterFirst(signals: Chan<bool>, events: seq<WaitEvent>, i: int)
    requires IsTimeoutChan(signals)
    requires |events| > 0 && !events[0].Delivered?
    requires FirstDelivery(events[1..], i)
    ensures FirstDelivery(events, i + 1) && events[i + 1] == events[1..][i]
    ensures SlotAfter(signals, events[..i + 1]) == SlotAfter(Tick(signals, events[0]), events[1..][..i])
  {
    assert forall j :: 1 <= j < |events| ==> events[j] == events[1..][j - 1];
    assert events[..i + 1][1..] == events[1..][..i];
  }

  /** However many timeouts fire in a row, at most one signal waits in the slot. */
  lemma RepeatedTimeoutsHoldOne(signals: Chan<bool>, n: nat)
    requires IsTimeoutChan(signals)
    requires n >= 1
    ensures Await(signals, seq(n, _ => Elapsed)).signals.buffer == [true]
  {
  }
}

=== FILE: threads.dfy ===
/**
  Per-thread set-up (`InitThread` in db/pgo-raftkv/db.go): the thread-count
  checks, the endpoint record each thread gets, and the two address lookups
  handed to the protocol runtime — the `net` mailbox routing and the `fd`
  monitor lookup.
*/
module Threads {
  import opened Wrappers
  import opened Config
  import opened Signals

  /** Why InitThread panics. */
  datatype ThreadPanic =
    | ThreadCountMismatch(threadCount: int, replyPoints: seq<string>)
    | ReplyPointOutOfRange(threadIdx: int)
    | TooManyThreads

  /**
    What a client thread owns: its reply address (`self`), the `NumServers`
    constant given to its runtime, and its single-slot timeout channel. The
    request and response channels are unbuffered and carry no state here.
  */
  datatype ThreadEndpoint = ThreadEndpoint(self: string, numServers: int, signals: Chan<bool>)

  const Int32Modulus: int := 0x1_0000_0000

  /** Go's `int32(n)`: the value congruent to `n` modulo 2^32 in the signed 32-bit range. */
  function ToInt32(n: int): (r: int)
    ensures -0x8000_0000 <= r < 0x8000_0000
    ensures (n - r) % Int32Modulus == 0
    ensures -0x8000_0000 <= n < 0x8000_0000 ==> r == n
  {
    (n + 0x8000_0000) % Int32Modulus - 0x8000_0000
  }

  /**
    InitThread(threadIdx, threadCount), given the threads created so far.
    The thread count must equal the number of reply points, the index must
    name one of them, and no more than `threadCount` threads may exist.
  */
  function InitThread(client: RaftClient, pool: seq<ThreadEndpoint>, threadIdx: int, threadCount: int)
    : (r: Result<(seq<ThreadEndpoint>, ThreadEndpoint), ThreadPanic>)
    ensures r.Success? <==>
              threadCount == |client.clientReplyPoints| && 0 <= threadIdx < threadCount && |pool| < threadCount
    ensures threadCount != |client.clientReplyPoints| ==>
              r == Failure(ThreadCountMismatch(threadCount, client.clientReplyPoints))
    ensures r.Success? ==>
              && r.value.0 == pool + [r.value.1]
              && r.value.1.self == client.clientReplyPoints[threadIdx]
              && r.value.1.signals == NewTimeoutChan
              && r.value.1.numServers == ToInt32(|client.endpoints|)
  {
    if threadCount != |client.clientReplyPoints| then
      Failure(ThreadCountMismatch(threadCount, client.clientReplyPoints))
    else if !(0 <= threadIdx < |client.clientReplyPoints|) then
      Failure(ReplyPointOutOfRange(threadIdx))
    else
      var endpoint := ThreadEndpoint(client.clientReplyPoints[threadIdx], ToInt32(|client.endpoints|), NewTimeoutChan);
      var pool' := pool + [endpoint];
      if |pool'| > threadCount then Failure(TooManyThreads) else Success((pool', endpoint))
  }

  /** The benchmark driver calling InitThread once per index in `idxs`, in order, stopping at the first panic. */
  function InitThreads(client: RaftClient, pool: seq<ThreadEndpoint>, idxs: seq<int>, threadCount: int)
    : (r: Result<seq<ThreadEndpoint>, ThreadPanic>)
    decreases |idxs|
    ensures r.Success? <==>
              || |idxs| == 0
              || (&& threadCount == |client.clientReplyPoints|
                  && (forall i :: 0 <= i < |idxs| ==> 0 <= idxs[i] < threadCount)
                  && |pool| + |idxs| <= threadCount)
    ensures r.Success? ==>
              && |r.value| == |pool| + |idxs|
              && r.value[..|pool|] == pool
              && forall i :: 0 <= i < |idxs| ==> r.value[|pool| + i].self == client.clientReplyPoints[idxs[i]]
  {
    if |idxs| == 0 then Success(pool)
    else match InitThread(client, pool, idxs[0], threadCount)
      case Failure(p) => Failure(p)
      case Success((pool', _)) =>
        var r := InitThreads(client, pool', idxs[1..], threadCount);
        assert forall i :: 1 <= i < |idxs| ==> idxs[i] == idxs[1..][i - 1];
        if r.Success? then
          assert r.value[..|pool|] == pool' [..|pool|];
          r
        else r
  }

  /** A TLA+ index value the runtime asks the `net` mailboxes to resolve. */
  datatype TlaIndex = TlaNumber(n: int) | TlaString(s: string) | TlaOther

  datatype MailboxKind = MailboxesLocal | MailboxesRemote

  /** Why an address lookup panics. */
  datatype LookupPanic = CannotLinkIndex(idx: TlaIndex) | EndpointIndexOutOfRange(n: int) | UnknownMonitor(n: int)

  /**
    The `net` routing closure of a thread whose reply address is `self`:
    its own address is a local mailbox; server number `n` is the remote
    endpoint `n`; any other string is itself a remote address. A server
    number below 1 indexes before the endpoint list, and anything else
    cannot be linked; both panic.
  */
  function Route(self: string, endpoints: seq<string>, idx: TlaIndex)
    : (r: Result<(MailboxKind, string), LookupPanic>)
    ensures r.Success? && r.value.0 == MailboxesLocal <==> idx == TlaString(self)
    ensures idx == TlaString(self) ==> r.value.1 == self
    ensures idx.TlaNumber? && 1 <= idx.n <= |endpoints| ==> r == Success((MailboxesRemote, endpoints[idx.n - 1]))
    ensures idx.TlaString? && idx.s != self ==> r == Success((MailboxesRemote, idx.s))
    ensures r.Failure? <==> idx.TlaOther? || (idx.TlaNumber? && !(1 <= idx.n <= |endpoints|))
  {
    if idx == TlaString(self) then Success((MailboxesLocal, self))
    else if idx.TlaNumber? && idx.n <= |endpoints| then
      if idx.n >= 1 then Success((MailboxesRemote, endpoints[idx.n - 1]))
      else Failure(EndpointIndexOutOfRange(idx.n))
    else if idx.TlaString? then Success((MailboxesRemote, idx.s))
    else Failure(CannotLinkIndex(idx))
  }

  /**
    The `fd` closure: the failure-detector address of server number `n`,
    looked up through that server's endpoint in the monitor map.
  */
  function MonitorAddress(client: RaftClient, n: int): (r: Result<string, LookupPanic>)
    ensures r.Success? <==> 1 <= n <= |client.endpoints| && client.endpoints[n - 1] in client.endpointMonitors
    ensures r.Success? ==> r.value == client.endpointMonitors[client.endpoints[n - 1]]
  {
    if !(1 <= n <= |client.endpoints|) then Failure(EndpointIndexOutOfRange(n))
    else if client.endpoints[n - 1] in client.endpointMonitors then
      Success(client.endpointMonitors[client.endpoints[n - 1]])
    else Failure(UnknownMonitor(n))
  }

  /**
    The two lookups agree on server numbers: for server `n` whose endpoint
    has a last `endpoint->monitor` entry among the parsed monitor entries,
    the `net` routing reaches that endpoint remotely and the `fd` lookup
    gives that entry's monitor.
  */
  lemma ConfiguredServerReachable(client: RaftClient, self: string, entries: seq<Entry>, n: int, i: int)
    requires ParseMappings(entries, 0, map[]) == Success(client.endpointMonitors)
    requires 1 <= n <= |client.endpoints|
    requires 0 <= i < |entries| && IsMapping(entries[i]) && !Overridden(entries, i)
    requires Source(entries[i]) == client.endpoints[n - 1]
    ensures Route(self, client.endpoints, TlaNumber(n)) == Success((MailboxesRemote, client.endpoints[n - 1]))
    ensures MonitorAddress(client, n) == Success(Target(entries[i]))
  {
    RouteToServer(self, client.endpoints, n);
    ParseMappingsValues(entries, 0, map[]);
  }

  /** Server number `n` in range is routed to the remote endpoint `n`, whatever the thread. */
  lemma RouteToServer(self: string, endpoints: seq<string>, n: int)
    requires 1 <= n <= |endpoints|
    ensures Route(self, endpoints, TlaNumber(n)) == Success((MailboxesRemote, endpoints[n - 1]))
  {
  }
}

=== FILE: wire.dfy ===
/**
  The messages exchanged between a client thread and its protocol runtime
  instance (db/pgo-raftkv/db.go), as a closed set of variants instead of
  open-ended TLA+ records.
*/
module Wire {

  /**
    A stored value as it travels in a request or response: a record of
    string fields (structured mode) or a plain string (integer-size mode).
  */
  datatype WireValue = RecordVal(fields: map<string, string>) | StrVal(s: string)

  /** A client request: `[type |-> Get, key |-> k]` or `[type |-> Put, key |-> k, value |-> v]`. */
  datatype Request = Get(key: string) | Put(key: string, value: WireValue)

  /** The `mtype` tag of a message coming back from the runtime. */
  datatype MsgType = ClientGetResponse | ClientPutResponse | OtherType(name: string)

  /** The `mresponse` record: the key the answer is about, presence flag and value. */
  datatype ResponseBody = ResponseBody(key: string, ok: bool, value: WireValue)

  /** A message on a thread's outbound channel. */
  datatype Response = Response(msuccess: bool, mtype: MsgType, mresponse: ResponseBody)

  /** The response type that answers a request of the given kind. */
  function ExpectedType(req: Request): (t: MsgType)
    ensures t.ClientGetResponse? <==> req.Get?
    ensures t.ClientPutResponse? <==> req.Put?
  {
    match req
    case Get(_) => ClientGetResponse
    case Put(_, _) => ClientPutResponse
  }

  /**
    The integrity checks every response must pass before the client looks at
    its contents: success flag set, response type matching the request kind,
    and the response about the key that was asked for.
  */
  predicate Correlates(req: Request, resp: Response)
  {
    && resp.msuccess
    && resp.mtype == ExpectedType(req)
    && resp.mresponse.key == req.key
  }
}

=== FILE: wrappers.dfy ===
/** Small failure-carrying datatypes shared by the rest of the model. */
module Wrappers {

  /** An optional value; stands for Go's nil-able maps and "value, ok" lookups. */
  datatype Option<+T> = None | Some(value: T)

  /** A value or an error; stands for Go's `(value, error)` return pairs. */
  datatype Result<+T, +E> = Success(value: T) | Failure(error: E)
}
